=== FILE: README.md ===
# Merchant record index manager

A Dafny model of the merchant chaincode in `owner/manageOwner.go`. The chaincode keeps
Merchant records on a flat key/value ledger that offers only point get, put and delete.
To support "list all merchants" it keeps one extra entry under the reserved key
`_Merchantindex`. That entry holds the ordered list of merchant ids. Create appends to it
and delete removes from it, each by a full read-decode-modify-write of the list. Both happen
after the record itself has been written or deleted, never atomically with it.

The model has six modules:

- `Values` (`values.dfy`): the `Merchant` record and the `Entry` a ledger key can hold. An
  entry is a merchant, an index, or opaque `Raw` text. This module also has the two
  forgiving decode policies the guards rely on. A value that is not a merchant decodes to
  the blank merchant, whose id is `""`. A value that is not an index decodes to `[]`.
- `IndexList` (`index_list.dfy`): the id list and its two edits. Append goes at the end.
  Removal cuts out the first matching entry.
- `Ledger` (`ledger.dfy`): the ledger as an immutable `map<string, Entry>`. It also has the
  reserved keys and the fault plan of one invocation.
- `ManageOwner` (`manage_owner.dfy`): every entry point and operation, as a pure step. A
  step returns the new ledger, the caller's outcome and the events sent. The outcome is
  `Ok`, `SoftErr` (a nil result with a 503 event) or `HardErr` (an error returned to the
  caller, with no event), because the source mixes all three.
- `Consistency` (`consistency.dfy`) and `Behaviour` (`behaviour.dfy`): the index/ledger
  invariant, and the lemmas that relate several calls. The invariant says the index has no
  duplicates, lists exactly the keys that hold merchant records, and each record sits under
  its own id.

Fault injection: an invocation's ledger calls are numbered from 0 in source order, and
`faults: set<nat>` says which of them return an error. A failing write or delete changes
nothing. This exposes the windows between the record write and the index write.

In these places the code behaves differently from what its comments and its intended use suggest. The model follows the code:

- A ledger read of an absent key is not an error; it reads as nothing. So `getAllMerchants`
  does not fail on an index entry whose record is gone. It lists that id with an empty
  value (`Behaviour.StaleEntryIsListed`). Only a read *error* aborts the listing.
- Deleting an unknown id does not leave the ledger untouched. It still deletes whatever
  non-merchant value sat under that key. It also rewrites the index, with unchanged
  contents.
- The invariant holds only for ids that are non-empty and differ from `_Merchantindex`. The
  code never checks either condition. `Behaviour.UpdateEmptyIdOrphans`,
  `Behaviour.CreateReservedIdBreaksIndex` and `Behaviour.DeleteReservedIdDropsIndex` show
  what happens without them.
- `Init` is documented as a reset, but it clears only the index. Records written before it
  stay in the ledger, unlisted (`Consistency.InitConsistentIff`).

## Model

| member | source | states |
|---|---|---|
| Values.MerchantFromArgs | owner/manageOwner.go:347-354 | the record built from the eight positional arguments has id `args[0]` and mutable fields `args[1..7]` in order |
| Values.DecodeMerchant | owner/manageOwner.go:287-289 | a stored merchant decodes to itself; an absent key or any other value decodes to the blank record; so a decoded non-empty id proves a merchant with that id is stored |
| Values.DecodeIndex | owner/manageOwner.go:236-237 | an encoded index decodes to itself; an absent or corrupt index decodes to the empty list, never to an error |
| IndexList.RemoveFirst | owner/manageOwner.go:239-249 | removal takes out exactly one occurrence of the id (multiset difference), shortens the list by one when the id is present, and leaves the list unchanged when it is absent |
| IndexList.RemoveFirstSplices | owner/manageOwner.go:239-249 | the occurrence removed is the first one, and the entries before and after it keep their order |
| IndexList.RemoveFirstKeepsDistinct | owner/manageOwner.go:239-249 | on a duplicate-free index, removal keeps it duplicate-free and its id set loses exactly the removed id |
| IndexList.AppendKeepsDistinct | owner/manageOwner.go:400 | appending an id not yet listed keeps the index duplicate-free and adds exactly that id |
| ManageOwner.Init | owner/manageOwner.go:58-88 | a wrong argument count gives a 503 event and no change; a fault-free init writes the test value and an empty index and reports 200; on success the index key holds an encoded empty index; every key other than the test key and the index key, merchant records included, keeps its value; an error from either write is returned to the caller rather than sent as an event, and a failed index write leaves the test value written and the index as it was |
| ManageOwner.GetMerchantByID | owner/manageOwner.go:143-168 | read-only; a wrong argument count or a read error gives a 503 event and a nil result; otherwise the stored value is returned, with an absent key read as nothing rather than as an error |
| ManageOwner.Resolve | owner/manageOwner.go:184-197 | the listing walk succeeds exactly when none of its reads fails, and then yields one `(id, value)` per id in index order; otherwise it stops at the first failing read |
| ManageOwner.GetAllMerchants | owner/manageOwner.go:172-201 | read-only and event-free; it never answers with a 503 event: an index read error or any id read error is returned to the caller with no partial result, naming the first failing id; otherwise the listing has one entry per index entry, in index order |
| ManageOwner.DeleteMerchant | owner/manageOwner.go:205-261 | no existence check: the key is deleted unconditionally; the index then loses only the first matching entry; an index read error gives a 503 event after the record is already gone; the index entry is written back even when its contents do not change; an index write error is dropped and success is still reported; delete never returns an error; only the id's key and the index key change |
| ManageOwner.UnlistDeleted | owner/manageOwner.go:227-254 | the index half of delete: a read error gives a 503 event and writes nothing; otherwise the index entry is always written back, without the first entry equal to the id; a failed write leaves the ledger as it was and still reports success; no other key changes |
| ManageOwner.UpdateMerchant | owner/manageOwner.go:265-332 | with a matching stored id, the record keeps its id and takes the seven mutable fields from arguments 1..7; otherwise a 503 not-found or read-failed event and no change; a write error is returned to the caller and nothing is written; the index never changes and no other key is written |
| ManageOwner.CreateMerchant | owner/manageOwner.go:336-418 | rejected with a 503 "already exists" and no change exactly when the stored value decodes to a merchant with this id; a read error is returned before any write; the only 503 events are the argument count and "already exists", and past the guard the record write error, the index read error and the index write error are each returned to the caller; on success the record is stored under its id and the id is appended to the end of the index with no duplicate check, the earlier entries unchanged; a returned error never leaves the index written, at most the record |
| ManageOwner.Invoke | owner/manageOwner.go:99-119 | `init`, `createMerchant`, `deleteMerchant` and `updateMerchant` go to their operations; any other name gives a 503 event and no change |
| ManageOwner.Query | owner/manageOwner.go:123-139 | `getMerchantByID` and `getAllMerchants` go to their operations; a query never changes the ledger; any other name gives a 503 event |
| Consistency.GuardMatchesRecords | owner/manageOwner.go:359-363 | on any ledger whose records sit under their own ids, whatever its index says, and for a non-empty id, the existence guard fires exactly when a merchant record is stored under that id |
| Consistency.InvokeKeepsOwnIds | owner/manageOwner.go:99-119 | every invocation, with any id and under any fault plan, leaves every merchant record under its own id, so the guard lemma applies to every ledger the operations produce, consistent or not |
| Consistency.CreatePreserves | owner/manageOwner.go:355-408 | a fault-free create with an id other than `_Merchantindex` keeps the index duplicate-free and equal, as a set, to the merchant keys |
| Consistency.UpdatePreserves | owner/manageOwner.go:277-322 | a fault-free update with a non-empty id preserves the invariant |
| Consistency.DeletePreserves | owner/manageOwner.go:215-251 | a fault-free delete of any id other than `_Merchantindex` preserves the invariant |
| Consistency.ApplyPreserves | owner/manageOwner.go:99-139 | every fault-free invocation other than `init`, with a non-empty, non-reserved id, and every query, preserves the invariant |
| Consistency.RunPreserves | owner/manageOwner.go:99-139 | any sequence of such calls preserves the invariant |
| Consistency.InitConsistentIff | owner/manageOwner.go:76-80 | init yields a consistent ledger if and only if no merchant record was stored outside the test and index keys beforehand |
| Consistency.ConsistentFromInit | owner/manageOwner.go:76-78 | starting from init on a ledger without records, any sequence of safe fault-free calls keeps the index and the records in step |
| Behaviour.ArgCountCheckedFirst | owner/manageOwner.go:61-68 | for all four invocations (also at lines 206-213, 268-275, 338-345), a wrong argument count gives the same 503 event whatever the ledger would do, and changes nothing |
| Behaviour.LookupArgCountCheckedFirst | owner/manageOwner.go:147-154 | the lookup's argument-count check comes before any ledger read |
| Behaviour.CreateEmptyIdRejected | owner/manageOwner.go:359-372 | on every ledger whose records sit under their own ids, a create with the empty id is always refused as "already exists", whatever the index says |
| Behaviour.CreateTwiceRejected | owner/manageOwner.go:355-372 | for an id other than `_Merchantindex`, after a successful create, a second create of the same id is refused and changes nothing |
| Behaviour.CreateThenGet | owner/manageOwner.go:387 | for an id other than `_Merchantindex`, a created record reads back exactly as described by its arguments |
| Behaviour.UpdateThenGet | owner/manageOwner.go:287-319 | an updated record reads back with its id and the new field values |
| Behaviour.DeleteThenGet | owner/manageOwner.go:216 | for an id other than `_Merchantindex`, after a delete the id reads as absent |
| Behaviour.DeleteUnknownId | owner/manageOwner.go:216-251 | in a consistent ledger, deleting an id other than `_Merchantindex` that has no record succeeds, and the index contents and the set of records stay the same |
| Behaviour.ListingMatchesRecords | owner/manageOwner.go:178-200 | in a consistent ledger a fault-free listing succeeds, and lists each stored merchant in index order, under its own id, with no id listed twice |
| Behaviour.StaleEntryIsListed | owner/manageOwner.go:186-193 | an index entry whose record is missing does not fail the listing; it is listed with no value |
| Behaviour.EmptyIndexListsNothing | owner/manageOwner.go:182-198 | an empty or absent index yields an empty listing, not an error |
| Behaviour.CreateIndexFaultOrphansRecord | owner/manageOwner.go:387-395 | if the index read fails after the record write, create returns an error and leaves a record that the index does not list |
| Behaviour.RetryAfterCreateRejected | owner/manageOwner.go:359-395 | for an id other than `_Merchantindex`, once a create has written its record, whether or not its index update then failed, every later create of that id is refused, so a retry never lists an orphaned record |
| Behaviour.DeleteIndexFaultDanglesEntry | owner/manageOwner.go:227-254 | if delete's index read or write fails, the record is gone but the index still lists it; a write failure is even reported as success |
| Behaviour.UpdateEmptyIdOrphans | owner/manageOwner.go:287-319 | an update of the empty id where nothing is stored succeeds and creates an unindexed record, breaking the invariant |
| Behaviour.EmptyIdOrphanBlocksCreate | owner/manageOwner.go:359-372 | the unindexed record left by updating the empty id still makes a create of the empty id fail as "already exists" |
| Behaviour.CreateReservedIdBreaksIndex | owner/manageOwner.go:387-405 | a create with id `_Merchantindex` reports success, but the index write overwrites the record and leaves an index listing only the reserved key |
| Behaviour.ReservedIdCreatesRepeat | owner/manageOwner.go:359-405 | the existence guard does not stop `_Merchantindex` while no merchant record sits under it: a create of it succeeds, a second create right after succeeds again, and each leaves an index listing only the reserved key |
| Behaviour.DeleteReservedIdDropsIndex | owner/manageOwner.go:216-251 | a delete of `_Merchantindex` reports success and leaves an empty index, so the ledger stays consistent only if it held no records |
| Behaviour.FreshCreateAppends | owner/manageOwner.go:396-405 | a create of a non-empty id other than `_Merchantindex`, with nothing stored under it, succeeds and appends that id to the index |
| Behaviour.ListingAfterDeletingMiddle | owner/manageOwner.go:239-249 | deleting the middle of three listed ids leaves the outer two in the listing, in order |
| Behaviour.ListingOrderScenario | owner/manageOwner.go:184-197 | after init, creating m1, m2 and m3 and deleting m2, the listing is m1 then m3, each with its record |

## Left out

- JSON text: the hand-built record JSON (lines 309-318, 374-383) and its missing escaping are not modelled. In the source, a field value containing a quote either makes the stored text invalid JSON, or injects keys of its own. Invalid text decodes as blank, so a second create of its id would pass the guard and list the id twice. A name such as `x", "merchantId": "m2` makes valid JSON with a second `merchantId`; the decoder keeps the last one, so the record stored under `m1` decodes as merchant `m2`. In the source this breaks what `Consistency.InvokeKeepsOwnIds` proves of the model. The model stores records structurally, so it can show neither. Neither are the `merchantID`/`merchantId` key spellings, the brace and comma assembly of the listing (183-198), or the event message text. Values, listings and events are datatypes instead.
- Raw text never decodes as a merchant or an index. In the source, a test value that happened to be valid merchant or index JSON would decode. The model treats that text as opaque.
- Init marshals a nil slice, which the source stores as `null`. That decodes as the empty list, so it is modelled as an empty index entry.
- The platform shim: `main` (49-54), `shim.Start` and the stub's network behaviour. The ledger is a map, and the event sink is the list of events a step returns.
- `Run` (92-95) only forwards to `Invoke`, so it is not modelled separately.
- Failures of `SetEvent` itself are not modelled. Each event is assumed delivered.
- Ids are modelled as Unicode strings that pass through the index encoding unchanged. In the source, `json.Marshal` (lines 250 and 402) replaces invalid UTF-8 bytes in an id with U+FFFD. Such an id would be indexed under a different string, which delete never removes and which the listing reads as absent.
- A ledger read sees the writes made earlier in the same invocation: create reads the index (392) after its record write (387), and delete reads it (227) after its delete (216). `Behaviour.CreateReservedIdBreaksIndex` and `Behaviour.DeleteReservedIdDropsIndex` rely on this. A ledger whose reads return only committed state would give different results there.
- Whether the platform discards an invocation's writes when the invocation returns an error is outside this code. The model keeps every write made before the error. This is the worst case, and it is what the partial-failure lemmas describe.
- Concurrency and ledger serialisation. Each invocation is one atomic step.
- Debug printing.


=== FILE: behaviour.dfy ===
/**
 Properties that relate several calls, or one call and the invariant: what a
 later read sees, what the guards let through, and what a fault between the
 record write and the index write leaves behind.
 */
module Behaviour {
  import opened Values
  import opened IndexList
  import opened Ledger
  import opened ManageOwner
  import opened Consistency

  /** A wrong argument count is answered with a 503 event before any ledger
      call, whatever the ledger would have done: the fault plan is irrelevant
      and nothing changes. */
  lemma ArgCountCheckedFirst(s: Store, fn: string, args: seq<string>, f1: Faults, f2: Faults)
    requires fn in InvokeNames
    requires |args| != (if fn in {"createMerchant", "updateMerchant"} then 8 else 1)
    ensures Invoke(s, fn, args, f1) == Invoke(s, fn, args, f2)
    ensures Invoke(s, fn, args, f1).store == s
    ensures Invoke(s, fn, args, f1).events == [Event(Unavailable, BadArgCount(if fn in {"createMerchant", "updateMerchant"} then 8 else 1))]
  {
  }

  /** The same for the queries that check their argument count. */
  lemma LookupArgCountCheckedFirst(s: Store, args: seq<string>, f1: Faults, f2: Faults)
    requires |args| != 1
    ensures Query(s, "getMerchantByID", args, f1) == Query(s, "getMerchantByID", args, f2)
    ensures Query(s, "getMerchantByID", args, f1).outcome == SoftErr(BadArgCount(1))
  {
  }

  /** A create with the empty id is always refused, on every ledger whose
      records sit under their own ids (every ledger the operations leave
      behind, by `InvokeKeepsOwnIds`): an absent or non-merchant value
      decodes to an empty id, which matches, and so does a record stored
      under the empty key. */
  lemma CreateEmptyIdRejected(s: Store, args: seq<string>, faults: Faults)
    requires RecordsUnderOwnIds(s)
    requires |args| == 8 && args[0] == "" && 0 !in faults
    ensures CreateMerchant(s, args, faults) == Reject(s, AlreadyExists)
  {
    assert "" in s && s[""].MerchantEntry? ==> s[""].merchant.id == "";
  }

  /** Creating an id twice: the second create is refused and changes nothing. */
  lemma CreateTwiceRejected(s: Store, args: seq<string>, again: seq<string>, faults: Faults)
    requires |args| == 8 && |again| == 8 && again[0] == args[0] && args[0] != IndexKey
    requires CreateMerchant(s, args, {}).outcome.Ok?
    requires 0 !in faults
    ensures var s1 := CreateMerchant(s, args, {}).store;
      CreateMerchant(s1, again, faults) == Reject(s1, AlreadyExists)
  {
    var s1 := CreateMerchant(s, args, {}).store;
    assert Lookup(s1, args[0]) == Some(MerchantEntry(MerchantFromArgs(args)));
  }

  /** A created record reads back as exactly the record described by the arguments. */
  lemma CreateThenGet(s: Store, args: seq<string>)
    requires |args| == 8 && args[0] != IndexKey
    requires CreateMerchant(s, args, {}).outcome.Ok?
    ensures GetMerchantByID(CreateMerchant(s, args, {}).store, [args[0]], {}).outcome
      == Ok(Record(Some(MerchantEntry(MerchantFromArgs(args)))))
  {
  }

  /** An updated record reads back with the same id and the new field values:
      the same record a create with these arguments would have written. */
  lemma UpdateThenGet(s: Store, args: seq<string>)
    requires |args| == 8
    requires UpdateMerchant(s, args, {}).outcome.Ok?
    ensures GetMerchantByID(UpdateMerchant(s, args, {}).store, [args[0]], {}).outcome
      == Ok(Record(Some(MerchantEntry(MerchantFromArgs(args)))))
  {
    var t := UpdateMerchant(s, args, {}).store;
    FieldsDetermineMerchant(t[args[0]].merchant, MerchantFromArgs(args));
  }

  /** After a delete the id reads as absent. */
  lemma DeleteThenGet(s: Store, id: string)
    requires id != IndexKey
    ensures GetMerchantByID(DeleteMerchant(s, [id], {}).store, [id], {}).outcome == Ok(Record(None))
  {
  }

  /** Deleting an id that has no record succeeds, and neither the index
      contents nor the set of records change. */
  lemma DeleteUnknownId(s: Store, id: string)
    requires Consistent(s)
    requires id !in MerchantKeys(s) && id != IndexKey
    ensures DeleteMerchant(s, [id], {}).outcome == Ok(NoReply)
    ensures IndexOf(DeleteMerchant(s, [id], {}).store) == IndexOf(s)
    ensures MerchantKeys(DeleteMerchant(s, [id], {}).store) == MerchantKeys(s)
  {
    var t := DeleteMerchant(s, [id], {}).store;
    assert id !in IndexOf(s) by {
      assert id !in Elems(IndexOf(s));
    }
    assert t == (s - {id})[IndexKey := IndexEntry(IndexOf(s))];
    assert MerchantKeys(t) == MerchantKeys(s) by {
      MerchantKeysAfterDelete(s, id);
      MerchantKeysAfterPut(s - {id}, IndexKey, IndexEntry(IndexOf(s)));
      IndexKeyHoldsNoMerchant(s);
    }
  }

  /** In a consistent ledger a fault-free listing succeeds and lists every
      record once, in index order, each under its own id. */
  lemma ListingMatchesRecords(s: Store)
    requires Consistent(s)
    ensures var r := GetAllMerchants(s, {});
      && r.outcome.Ok?
      && |r.outcome.reply.items| == |IndexOf(s)|
      && (forall i :: 0 <= i < |IndexOf(s)| ==>
            r.outcome.reply.items[i].0 == IndexOf(s)[i]
            && r.outcome.reply.items[i].1.Some?
            && r.outcome.reply.items[i].1.value.MerchantEntry?
            && r.outcome.reply.items[i].1.value.merchant.id == IndexOf(s)[i])
      // each record is listed once
      && (forall i, j :: 0 <= i < j < |IndexOf(s)| ==>
            r.outcome.reply.items[i].0 != r.outcome.reply.items[j].0)
  {
    var ids := IndexOf(s);
    forall i | 0 <= i < |ids| ensures ids[i] in MerchantKeys(s) {
      assert ids[i] in Elems(ids);
    }
  }

  /** An index entry whose record is gone does not fail the listing: the
      absent key reads as nothing and is listed with no value. */
  lemma StaleEntryIsListed(s: Store, k: nat)
    requires k < |IndexOf(s)| && IndexOf(s)[k] !in s
    ensures GetAllMerchants(s, {}).outcome.Ok?
    ensures GetAllMerchants(s, {}).outcome.reply.items[k] == (IndexOf(s)[k], None)
  {
  }

  /** An index with no entries lists nothing, which is not an error. */
  lemma EmptyIndexListsNothing(s: Store, faults: Faults)
    requires IndexOf(s) == [] && 0 !in faults
    ensures GetAllMerchants(s, faults).outcome == Ok(Listing([]))
  {
  }

  /** Partial failure of create: when the index read fails after the record
      write, the caller gets an error but the record stays, unlisted. */
  lemma CreateIndexFaultOrphansRecord(s: Store, args: seq<string>)
    requires Consistent(s)
    requires |args| == 8 && args[0] != "" && args[0] != IndexKey && args[0] !in MerchantKeys(s)
    ensures var r := CreateMerchant(s, args, {2});
      && r.outcome == HardErr(IndexLookupFailed)
      && args[0] in MerchantKeys(r.store)
      && args[0] !in IndexOf(r.store)
      && !Consistent(r.store)
  {
    GuardMatchesRecords(s, args[0]);
    var r := CreateMerchant(s, args, {2});
    assert r.store == s[args[0] := MerchantEntry(MerchantFromArgs(args))];
    assert IndexOf(r.store) == IndexOf(s);
    assert args[0] !in Elems(IndexOf(s));
    assert args[0] in MerchantKeys(r.store);
  }

  /** A retried create cannot repair the orphan: once a create has written
      its record, whether or not the index was then read and written, every
      later create of that id is refused as already existing, so the id is
      never appended to the index by a create. */
  lemma RetryAfterCreateRejected(s: Store, args: seq<string>, again: seq<string>, f1: Faults, f2: Faults)
    requires |args| == 8 && |again| == 8 && again[0] == args[0] && args[0] != IndexKey
    requires 0 !in f1 && 1 !in f1 && 0 !in f2
    ensures var t := CreateMerchant(s, args, f1).store;
      CreateMerchant(t, again, f2) == Reject(t, AlreadyExists)
  {
    var t := CreateMerchant(s, args, f1).store;
    if DecodeMerchant(Lookup(s, args[0])).id != args[0] {
      assert Lookup(t, args[0]) == Some(MerchantEntry(MerchantFromArgs(args)));
    }
  }

  /** The orphan left by updating the empty id (`UpdateEmptyIdOrphans`) still
      blocks a create of the empty id, although the index does not list it. */
  lemma EmptyIdOrphanBlocksCreate(s: Store, args: seq<string>, again: seq<string>)
    requires Consistent(s)
    requires |args| == 8 && args[0] == "" && "" !in s
    requires |again| == 8 && again[0] == ""
    ensures var t := UpdateMerchant(s, args, {}).store;
      && !Consistent(t)
      && "" !in IndexOf(t)
      && CreateMerchant(t, again, {}) == Reject(t, AlreadyExists)
  {
    var t := UpdateMerchant(s, args, {}).store;
    UpdateEmptyIdOrphans(s, args);
    assert "" !in IndexOf(t) by {
      assert "" !in MerchantKeys(s);
      assert "" !in Elems(IndexOf(s));
    }
    InvokeKeepsOwnIds(s, "updateMerchant", args, {});
    CreateEmptyIdRejected(t, again, {});
  }

  /** Partial failure of delete: when the index read fails the caller sees a
      503 event, when the index write fails the error is dropped and success
      is reported; either way the record is gone and the index still lists it. */
  lemma DeleteIndexFaultDanglesEntry(s: Store, id: string, faults: Faults)
    requires Consistent(s)
    requires id in MerchantKeys(s) && id != IndexKey
    requires faults == {1} || faults == {2}
    ensures var r := DeleteMerchant(s, [id], faults);
      && (faults == {1} ==> r.outcome == SoftErr(IndexReadFailed))
      && (faults == {2} ==> r.outcome == Ok(NoReply) && r.events == [Event(Success, Deleted(id))])
      && id !in r.store
      && id in IndexOf(r.store)
      && !Consistent(r.store)
  {
    var r := DeleteMerchant(s, [id], faults);
    assert r.store == s - {id};
    assert IndexOf(r.store) == IndexOf(s);
    assert id in Elems(IndexOf(s));
    assert id !in MerchantKeys(r.store);
  }

  /** Updating the empty id where no record is stored succeeds: the absent
      record decodes with the empty id, which matches, so an unindexed record
      appears and the ledger is no longer consistent. */
  lemma UpdateEmptyIdOrphans(s: Store, args: seq<string>)
    requires Consistent(s)
    requires |args| == 8 && args[0] == "" && "" !in s
    ensures UpdateMerchant(s, args, {}).outcome.Ok?
    ensures !Consistent(UpdateMerchant(s, args, {}).store)
  {
    var t := UpdateMerchant(s, args, {}).store;
    assert "" in MerchantKeys(t);
    assert "" !in MerchantKeys(s);
    assert IndexOf(t) == IndexOf(s);
  }

  /** Creating a merchant under the reserved index key reports success, but
      the index write then overwrites the record: the index lists only the
      reserved key and the ledger is no longer consistent. */
  lemma CreateReservedIdBreaksIndex(s: Store, args: seq<string>)
    requires Consistent(s)
    requires |args| == 8 && args[0] == IndexKey
    ensures var r := CreateMerchant(s, args, {});
      && r.outcome == Ok(NoReply)
      && r.events == [Event(Success, Created(IndexKey))]
      && Lookup(r.store, IndexKey) == Some(IndexEntry([IndexKey]))
      && !Consistent(r.store)
  {
    IndexKeyHoldsNoMerchant(s);
    assert DecodeMerchant(Lookup(s, IndexKey)) == Blank && Blank.id != IndexKey;
    var s1 := s[IndexKey := MerchantEntry(MerchantFromArgs(args))];
    assert IndexOf(s1) == [];
    var r := CreateMerchant(s, args, {});
    assert Blank.id != IndexKey;
    assert r.outcome.Ok?;
    assert IndexOf(s1) + [IndexKey] == [IndexKey];
    assert r.store == s1[IndexKey := IndexEntry([IndexKey])];
    assert r.store == s[IndexKey := IndexEntry([IndexKey])];
    assert IndexKey in Elems(IndexOf(r.store));
    assert IndexKey !in MerchantKeys(r.store);
  }

  /** The existence guard never stops the reserved id: each create of
      `_Merchantindex` finds the index entry there, which decodes to the blank
      record, so it succeeds again and again, each time leaving an index that
      lists only the reserved key. */
  lemma ReservedIdCreatesRepeat(s: Store, args: seq<string>, again: seq<string>)
    requires |args| == 8 && |again| == 8 && args[0] == IndexKey && again[0] == IndexKey
    requires IndexKey !in MerchantKeys(s)
    ensures var t := CreateMerchant(s, args, {});
      && t.outcome == Ok(NoReply)
      && CreateMerchant(t.store, again, {}).outcome == Ok(NoReply)
      && Lookup(CreateMerchant(t.store, again, {}).store, IndexKey) == Some(IndexEntry([IndexKey]))
  {
    var t := CreateMerchant(s, args, {});
    assert DecodeMerchant(Lookup(s, IndexKey)) == Blank && Blank.id != IndexKey;
    var s1 := s[IndexKey := MerchantEntry(MerchantFromArgs(args))];
    assert IndexOf(s1) + [IndexKey] == [IndexKey];
    assert t.store == s1[IndexKey := IndexEntry([IndexKey])];
    assert DecodeMerchant(Lookup(t.store, IndexKey)) == Blank;
  }

  /** Deleting the reserved index key reports success and leaves an empty
      index behind, so every existing record becomes unlisted. */
  lemma DeleteReservedIdDropsIndex(s: Store)
    requires Consistent(s)
    ensures var r := DeleteMerchant(s, [IndexKey], {});
      && r.outcome == Ok(NoReply)
      && IndexOf(r.store) == []
      && MerchantKeys(r.store) == MerchantKeys(s)
      && (Consistent(r.store) <==> MerchantKeys(s) == {})
  {
    IndexKeyHoldsNoMerchant(s);
    var r := DeleteMerchant(s, [IndexKey], {});
    assert r.store == (s - {IndexKey})[IndexKey := IndexEntry([])];
    MerchantKeysAfterDelete(s, IndexKey);
    MerchantKeysAfterPut(s - {IndexKey}, IndexKey, IndexEntry([]));
    assert Elems(IndexOf(r.store)) == {};
    if MerchantKeys(s) == {} {
      forall k | k in r.store ensures !r.store[k].MerchantEntry? {
        assert k !in MerchantKeys(r.store);
      }
    }
  }

  /** Sample arguments for a create or update of `id`. */
  function SampleArgs(id: string): seq<string>
  {
    [id, "Acme", "logo.png", "retail", "10", "USD", "1.0", "2024-01-01"]
  }

  /** A create of an id with nothing stored under it succeeds and appends the id. */
  lemma FreshCreateAppends(s: Store, args: seq<string>)
    requires |args| == 8 && args[0] !in s && args[0] != "" && args[0] != IndexKey
    ensures var t := CreateMerchant(s, args, {}).store;
      && IndexOf(t) == IndexOf(s) + [args[0]]
      && Lookup(t, args[0]) == Some(MerchantEntry(MerchantFromArgs(args)))
      && AgreeOutside(s, t, {args[0], IndexKey})
  {
    assert DecodeMerchant(Lookup(s, args[0])) == Blank;
  }

  /** Three creates of fresh, distinct ids on an empty index list them in order. */
  lemma ThreeCreatesInOrder(s0: Store, a: seq<string>, b: seq<string>, c: seq<string>)
    requires |a| == 8 && |b| == 8 && |c| == 8
    requires a[0] != b[0] && b[0] != c[0] && a[0] != c[0]
    requires forall id :: id in {a[0], b[0], c[0]} ==> id !in s0 && id != "" && id != IndexKey
    requires IndexOf(s0) == []
    ensures var s3 := CreateMerchant(CreateMerchant(CreateMerchant(s0, a, {}).store, b, {}).store, c, {}).store;
      && IndexOf(s3) == [a[0], b[0], c[0]]
      && Lookup(s3, a[0]) == Some(MerchantEntry(MerchantFromArgs(a)))
      && Lookup(s3, c[0]) == Some(MerchantEntry(MerchantFromArgs(c)))
  {
    var s1 := CreateMerchant(s0, a, {}).store;
    FreshCreateAppends(s0, a);
    assert Lookup(s1, b[0]) == Lookup(s0, b[0]) && Lookup(s1, c[0]) == Lookup(s0, c[0]);
    var s2 := CreateMerchant(s1, b, {}).store;
    FreshCreateAppends(s1, b);
    assert Lookup(s2, c[0]) == Lookup(s1, c[0]);
    assert Lookup(s2, a[0]) == Lookup(s1, a[0]);
    var s3 := CreateMerchant(s2, c, {}).store;
    FreshCreateAppends(s2, c);
    assert Lookup(s3, a[0]) == Lookup(s2, a[0]);
  }

  /** Removing the middle of three distinct ids. */
  lemma RemoveMiddle(a: string, b: string, c: string)
    requires a != b
    ensures RemoveFirst([a, b, c], b) == [a, c]
  {
    assert [a, b, c][1..] == [b, c];
    assert [b, c][1..] == [c];
  }

  /** The listing of a two-entry index, read without faults. */
  lemma ListingOfTwo(s: Store, a: string, c: string)
    requires IndexOf(s) == [a, c]
    ensures GetAllMerchants(s, {}).outcome == Ok(Listing([(a, Lookup(s, a)), (c, Lookup(s, c))]))
  {
    var r := GetAllMerchants(s, {});
    assert r.outcome.Ok?;
    var items := r.outcome.reply.items;
    assert |items| == 2 && items[0] == (a, Lookup(s, a)) && items[1] == (c, Lookup(s, c));
    assert items == [items[0], items[1]];
  }

  /** A delete leaves every key other than the id and the index key alone. */
  lemma DeleteKeepsOthers(s: Store, id: string, k: string)
    requires k != id && k != IndexKey
    ensures Lookup(DeleteMerchant(s, [id], {}).store, k) == Lookup(s, k)
  {
  }

  /** Deleting the middle of three listed ids leaves the outer two, in order. */
  lemma ListingAfterDeletingMiddle(s: Store, a: string, b: string, c: string)
    requires IndexOf(s) == [a, b, c] && a != b && b != c
    requires a != IndexKey && b != IndexKey && c != IndexKey
    ensures GetAllMerchants(DeleteMerchant(s, [b], {}).store, {}).outcome
      == Ok(Listing([(a, Lookup(s, a)), (c, Lookup(s, c))]))
  {
    var t := DeleteMerchant(s, [b], {}).store;
    assert IndexOf(t) == [a, c] by {
      RemoveMiddle(a, b, c);
    }
    DeleteKeepsOthers(s, b, a);
    DeleteKeepsOthers(s, b, c);
    ListingOfTwo(t, a, c);
  }

  /** Listing order is creation order with deleted ids cut out: after
      creating m1, m2, m3 on a freshly initialised ledger and deleting m2,
      the listing holds m1 then m3, each with its record. */
  lemma ListingOrderScenario(msg: string)
    ensures
      var s0 := Init(map[], [msg], {}).store;
      var s3 := CreateMerchant(CreateMerchant(CreateMerchant(s0, SampleArgs("m1"), {}).store,
                                              SampleArgs("m2"), {}).store, SampleArgs("m3"), {}).store;
      GetAllMerchants(DeleteMerchant(s3, ["m2"], {}).store, {}).outcome == Ok(Listing([
        ("m1", Some(MerchantEntry(MerchantFromArgs(SampleArgs("m1"))))),
        ("m3", Some(MerchantEntry(MerchantFromArgs(SampleArgs("m3")))))]))
  {
    var s0 := Init(map[], [msg], {}).store;
    assert s0.Keys == {TestKey, IndexKey};
    ThreeCreatesInOrder(s0, SampleArgs("m1"), SampleArgs("m2"), SampleArgs("m3"));
    var s3 := CreateMerchant(CreateMerchant(CreateMerchant(s0, SampleArgs("m1"), {}).store,
                                            SampleArgs("m2"), {}).store, SampleArgs("m3"), {}).store;
    ListingAfterDeletingMiddle(s3, "m1", "m2", "m3");
  }
}

=== FILE: consistency.dfy ===
/**
 The index/ledger consistency invariant: the index lists every merchant key
 exactly once and nothing else. The operations never check it; this module
 shows which calls preserve it, which preconditions that needs (a non-empty id
 that is not the reserved index key), and how faults between the record write
 and the index write break it.
 */
module Consistency {
  import opened Values
  import opened IndexList
  import opened Ledger
  import opened ManageOwner

  /** Every merchant record is stored under its own id. */
  ghost predicate RecordsUnderOwnIds(s: Store)
  {
    forall k :: k in s && s[k].MerchantEntry? ==> s[k].merchant.id == k
  }

  /** The index has no duplicates, it lists exactly the keys holding merchant
      records, and every record is stored under its own id. */
  ghost predicate Consistent(s: Store)
  {
    && NoDuplicates(IndexOf(s))
    && Elems(IndexOf(s)) == MerchantKeys(s)
    && RecordsUnderOwnIds(s)
  }

  /** In a consistent ledger the reserved key holds no merchant record. */
  lemma IndexKeyHoldsNoMerchant(s: Store)
    requires Consistent(s)
    ensures IndexKey !in MerchantKeys(s)
  {
    assert IndexKey in MerchantKeys(s) ==> IndexOf(s) == [] && Elems(IndexOf(s)) == {};
  }

  /** When records sit under their own ids, the create/update guard
      recognises exactly the ids of stored records, whatever the index says. */
  lemma GuardMatchesRecords(s: Store, id: string)
    requires RecordsUnderOwnIds(s) && id != ""
    ensures DecodeMerchant(Lookup(s, id)).id == id <==> id in MerchantKeys(s)
  {
    assert id in MerchantKeys(s) ==> s[id].merchant.id == id;
  }

  /** Writing an entry that is not a merchant, or a merchant under its own id,
      keeps every record under its own id; so does deleting a key. */
  lemma PutKeepsOwnIds(s: Store, k: string, e: Entry)
    requires RecordsUnderOwnIds(s)
    requires e.MerchantEntry? ==> e.merchant.id == k
    ensures RecordsUnderOwnIds(s[k := e])
    ensures RecordsUnderOwnIds(s - {k})
  {
  }

  /** Every invocation, with any id and under any fault plan, writes a
      merchant record only under its own id: records under their own ids are
      an invariant of every ledger the operations leave behind, including the
      inconsistent ones that faults and unchecked ids produce. */
  lemma InvokeKeepsOwnIds(s: Store, fn: string, args: seq<string>, faults: Faults)
    requires RecordsUnderOwnIds(s)
    ensures RecordsUnderOwnIds(Invoke(s, fn, args, faults).store)
  {
    var r := Invoke(s, fn, args, faults);
    if fn == "init" && r.store != s {
      var s1 := s[TestKey := r.store[TestKey]];
      PutKeepsOwnIds(s, TestKey, r.store[TestKey]);
      if r.store != s1 {
        assert r.store == s1[IndexKey := r.store[IndexKey]];
        PutKeepsOwnIds(s1, IndexKey, r.store[IndexKey]);
      }
    } else if fn == "createMerchant" && r.store != s {
      var id := args[0];
      var s1 := s[id := MerchantEntry(MerchantFromArgs(args))];
      PutKeepsOwnIds(s, id, MerchantEntry(MerchantFromArgs(args)));
      if r.store != s1 {
        assert r.store == s1[IndexKey := IndexEntry(IndexOf(s1) + [id])];
        PutKeepsOwnIds(s1, IndexKey, IndexEntry(IndexOf(s1) + [id]));
      }
    } else if fn == "updateMerchant" && r.store != s {
      var id := args[0];
      assert r.store == s[id := r.store[id]];
      PutKeepsOwnIds(s, id, r.store[id]);
    } else if fn == "deleteMerchant" && r.store != s {
      var id := args[0];
      PutKeepsOwnIds(s, id, IndexEntry([]));
      if r.store != s - {id} {
        assert r.store == (s - {id})[IndexKey := r.store[IndexKey]];
        PutKeepsOwnIds(s - {id}, IndexKey, r.store[IndexKey]);
      }
    }
  }

  /** A fault-free create with an id other than the reserved key preserves consistency. */
  lemma CreatePreserves(s: Store, args: seq<string>)
    requires Consistent(s)
    requires |args| > 0 ==> args[0] != IndexKey
    ensures Consistent(CreateMerchant(s, args, {}).store)
  {
    var r := CreateMerchant(s, args, {});
    if r.outcome.Ok? {
      var id := args[0];
      var m := MerchantFromArgs(args);
      IndexKeyHoldsNoMerchant(s);
      assert id in MerchantKeys(s) ==> DecodeMerchant(Lookup(s, id)).id == id;
      assert id !in IndexOf(s) by {
        assert id !in Elems(IndexOf(s));
      }
      AppendKeepsDistinct(IndexOf(s), id);
      var s1 := s[id := MerchantEntry(m)];
      var s2 := s1[IndexKey := IndexEntry(IndexOf(s) + [id])];
      assert IndexOf(s1) == IndexOf(s);
      assert r.store == s2;
      MerchantKeysAfterPut(s, id, MerchantEntry(m));
      MerchantKeysAfterPut(s1, IndexKey, IndexEntry(IndexOf(s) + [id]));
      assert MerchantKeys(s2) == MerchantKeys(s) + {id};
    }
  }

  /** A fault-free update with a non-empty id preserves consistency. */
  lemma UpdatePreserves(s: Store, args: seq<string>)
    requires Consistent(s)
    requires |args| > 0 ==> args[0] != ""
    ensures Consistent(UpdateMerchant(s, args, {}).store)
  {
    var r := UpdateMerchant(s, args, {});
    if r.outcome.Ok? {
      var id := args[0];
      GuardMatchesRecords(s, id);
      IndexKeyHoldsNoMerchant(s);
      var e := r.store[id];
      assert r.store == s[id := e];
      MerchantKeysAfterPut(s, id, e);
    }
  }

  /** A fault-free delete of any id other than the reserved key preserves consistency. */
  lemma DeletePreserves(s: Store, args: seq<string>)
    requires Consistent(s)
    requires |args| > 0 ==> args[0] != IndexKey
    ensures Consistent(DeleteMerchant(s, args, {}).store)
  {
    var r := DeleteMerchant(s, args, {});
    if |args| == 1 {
      var id := args[0];
      var s1 := s - {id};
      var ids := RemoveFirst(IndexOf(s), id);
      assert IndexOf(s1) == IndexOf(s);
      assert r.store == s1[IndexKey := IndexEntry(ids)];
      RemoveFirstKeepsDistinct(IndexOf(s), id);
      MerchantKeysAfterDelete(s, id);
      MerchantKeysAfterPut(s1, IndexKey, IndexEntry(ids));
      IndexKeyHoldsNoMerchant(s);
    }
  }

  /** One call from outside: a state-changing invocation or a query. */
  datatype Call =
    | Invocation(fn: string, args: seq<string>)
    | Inquiry(fn: string, args: seq<string>)

  /** A call made with no ledger faults. */
  function Apply(s: Store, c: Call): Step
  {
    match c
    case Invocation(fn, args) => Invoke(s, fn, args, {})
    case Inquiry(fn, args) => Query(s, fn, args, {})
  }

  /** The ledger after a sequence of fault-free calls. */
  function Run(s: Store, calls: seq<Call>): Store
    decreases |calls|
  {
    if calls == [] then s else Run(Apply(s, calls[0]).store, calls[1..])
  }

  /** The calls the invariant survives: no re-initialisation, and an id that
      is neither empty nor the reserved index key. */
  predicate Safe(c: Call)
  {
    c.Invocation? ==> c.fn != "init" && (|c.args| > 0 ==> c.args[0] != "" && c.args[0] != IndexKey)
  }

  /** Every safe fault-free call preserves consistency. */
  lemma ApplyPreserves(s: Store, c: Call)
    requires Consistent(s) && Safe(c)
    ensures Consistent(Apply(s, c).store)
  {
    match c
    case Inquiry(_, _) =>
    case Invocation(fn, args) =>
      if fn == "createMerchant" {
        CreatePreserves(s, args);
      } else if fn == "updateMerchant" {
        UpdatePreserves(s, args);
      } else if fn == "deleteMerchant" {
        DeletePreserves(s, args);
      }
  }

  /** Any sequence of safe fault-free calls preserves consistency. */
  lemma {:induction false} RunPreserves(s: Store, calls: seq<Call>)
    requires Consistent(s)
    requires forall i :: 0 <= i < |calls| ==> Safe(calls[i])
    ensures Consistent(Run(s, calls))
    decreases |calls|
  {
    if calls != [] {
      ApplyPreserves(s, calls[0]);
      RunPreserves(Apply(s, calls[0]).store, calls[1..]);
    }
  }

  /** Initialisation yields a consistent ledger exactly when the ledger held
      no merchant records outside the test and index keys: it clears the
      index but leaves older records behind, unlisted. */
  lemma InitConsistentIff(s: Store, msg: string)
    ensures Consistent(Init(s, [msg], {}).store) <==> MerchantKeys(s) <= {TestKey, IndexKey}
  {
    var t := Init(s, [msg], {}).store;
    assert IndexOf(t) == [] && Elems(IndexOf(t)) == {};
    assert MerchantKeys(t) == MerchantKeys(s) - {TestKey, IndexKey};
    if MerchantKeys(s) <= {TestKey, IndexKey} {
      assert MerchantKeys(t) == {};
      forall k | k in t ensures !t[k].MerchantEntry? {
        assert k !in MerchantKeys(t);
      }
    } else {
      var k :| k in MerchantKeys(s) && k !in {TestKey, IndexKey};
      assert k in MerchantKeys(t);
    }
  }

  /** Starting from initialisation of a ledger without records, any sequence
      of safe fault-free calls keeps the index and the records in step. */
  lemma ConsistentFromInit(s: Store, msg: string, calls: seq<Call>)
    requires MerchantKeys(s) <= {TestKey, IndexKey}
    requires forall i :: 0 <= i < |calls| ==> Safe(calls[i])
    ensures Consistent(Run(Init(s, [msg], {}).store, calls))
  {
    InitConsistentIff(s, msg);
    RunPreserves(Init(s, [msg], {}).store, calls);
  }
}

=== FILE: index_list.dfy ===
/**
 The ordered list of merchant ids kept in the index entry, and the two edits
 made to it: append at the end (create) and removal of the first matching
 entry (delete).
 */
module IndexList {

  /** No id occurs twice. */
  predicate NoDuplicates<T(==)>(xs: seq<T>)
  {
    forall i, j :: 0 <= i < j < |xs| ==> xs[i] != xs[j]
  }

  /** The ids of a list, as a set. */
  function Elems<T>(xs: seq<T>): set<T>
  {
    set x | x in xs
  }

  /** Position of the first occurrence of `x`. */
  function FirstIndex<T(==)>(xs: seq<T>, x: T): (k: nat)
    requires x in xs
    ensures k < |xs| && xs[k] == x
    ensures x !in xs[..k]
  {
    if xs[0] == x then 0
    else
      var k := FirstIndex(xs[1..], x);
      assert xs[..k + 1] == [xs[0]] + xs[1..][..k];
      k + 1
  }

  /** The splice of the deletion loop (owner/manageOwner.go:239-249): scan in
      order, cut out the first entry equal to `x`, stop. */
  function RemoveFirst<T(==)>(xs: seq<T>, x: T): (r: seq<T>)
    // an absent id leaves the list as it was
    ensures x !in xs ==> r == xs
    // exactly one occurrence of x goes, nothing else
    ensures multiset(r) == multiset(xs) - multiset{x}
    ensures x in xs ==> |r| == |xs| - 1
  {
    if xs == [] then []
    else if xs[0] == x then
      assert xs == [xs[0]] + xs[1..];
      xs[1..]
    else
      var rest := RemoveFirst(xs[1..], x);
      assert xs == [xs[0]] + xs[1..];
      [xs[0]] + rest
  }

  /** Removal cuts out the FIRST occurrence and keeps the other entries in order. */
  lemma {:induction false} RemoveFirstSplices<T>(xs: seq<T>, x: T)
    requires x in xs
    ensures RemoveFirst(xs, x) == xs[..FirstIndex(xs, x)] + xs[FirstIndex(xs, x) + 1..]
  {
    if xs[0] != x {
      var tail := xs[1..];
      var k := FirstIndex(tail, x);
      assert FirstIndex(xs, x) == k + 1;
      RemoveFirstSplices(tail, x);
      assert RemoveFirst(xs, x) == [xs[0]] + (tail[..k] + tail[k + 1..]);
      ConsSplice(xs, k);
    }
  }

  lemma ConsSplice<T>(xs: seq<T>, k: nat)
    requires k + 1 < |xs|
    ensures [xs[0]] + (xs[1..][..k] + xs[1..][k + 1..]) == xs[..k + 1] + xs[k + 2..]
  {
    assert xs[..k + 1] == [xs[0]] + xs[1..][..k];
    assert xs[k + 2..] == xs[1..][k + 1..];
  }

  /** The tail of a duplicate-free list is duplicate-free and misses the head. */
  lemma TailDistinct<T>(xs: seq<T>)
    requires NoDuplicates(xs) && xs != []
    ensures NoDuplicates(xs[1..]) && xs[0] !in xs[1..]
  {
    var tail := xs[1..];
    forall i, j | 0 <= i < j < |tail| ensures tail[i] != tail[j] {
      assert tail[i] == xs[i + 1] && tail[j] == xs[j + 1];
    }
    forall i | 0 <= i < |tail| ensures tail[i] != xs[0] {
      assert tail[i] == xs[i + 1];
    }
  }

  /** Putting an id in front of a duplicate-free list that misses it keeps it
      duplicate-free. */
  lemma ConsDistinct<T>(y: T, rest: seq<T>)
    requires NoDuplicates(rest) && y !in rest
    ensures NoDuplicates([y] + rest)
  {
    var r := [y] + rest;
    forall i, j | 0 <= i < j < |r| ensures r[i] != r[j] {
      assert r[j] == rest[j - 1];
      if i > 0 {
        assert r[i] == rest[i - 1];
      }
    }
  }

  /** On a duplicate-free list removal drops exactly the id and keeps the
      list duplicate-free. */
  lemma {:induction false} RemoveFirstKeepsDistinct<T>(xs: seq<T>, x: T)
    requires NoDuplicates(xs)
    ensures NoDuplicates(RemoveFirst(xs, x))
    ensures Elems(RemoveFirst(xs, x)) == Elems(xs) - {x}
  {
    if xs != [] {
      var tail := xs[1..];
      TailDistinct(xs);
      assert Elems(xs) == {xs[0]} + Elems(tail) by {
        assert xs == [xs[0]] + tail;
      }
      if xs[0] != x {
        RemoveFirstKeepsDistinct(tail, x);
        var rest := RemoveFirst(tail, x);
        assert RemoveFirst(xs, x) == [xs[0]] + rest;
        assert xs[0] !in rest by {
          assert xs[0] !in Elems(rest);
        }
        ConsDistinct(xs[0], rest);
        assert Elems([xs[0]] + rest) == {xs[0]} + Elems(rest);
      }
    }
  }

  /** Appending a fresh id keeps the list duplicate-free and adds exactly that id. */
  lemma AppendKeepsDistinct<T>(xs: seq<T>, x: T)
    requires NoDuplicates(xs) && x !in xs
    ensures NoDuplicates(xs + [x])
    ensures Elems(xs + [x]) == Elems(xs) + {x}
  {
    var r := xs + [x];
    forall i, j | 0 <= i < j < |r| ensures r[i] != r[j] {
      if j == |xs| {
        assert r[i] == xs[i];
      } else {
        assert r[i] == xs[i] && r[j] == xs[j];
      }
    }
  }
}

=== FILE: ledger.dfy ===
/**
 The flat key/value ledger the merchant operations run on: point reads,
 writes and deletes only. The ledger is an immutable map; an operation returns
 the map it leaves behind.
 */
module Ledger {
  import opened Values

  type Store = map<string, Entry>

  /** The reserved key of the index entry (owner/manageOwner.go:33). */
  const IndexKey: string := "_Merchantindex"

  /** The key of the test value written by initialisation (owner/manageOwner.go:72). */
  const TestKey: string := "abc"

  /** Fault plan of one invocation: the k-th ledger call it makes (counting
      from 0) returns an error exactly when k is in the set. A failing write or
      delete changes nothing. */
  type Faults = set<nat>

  /** A ledger read: an absent key is not an error, it reads as nothing. */
  function Lookup(s: Store, key: string): Option<Entry>
  {
    if key in s then Some(s[key]) else None
  }

  /** The index as every operation sees it, through the forgiving decode. */
  function IndexOf(s: Store): seq<string>
  {
    DecodeIndex(Lookup(s, IndexKey))
  }

  /** The keys that hold merchant records. */
  function MerchantKeys(s: Store): set<string>
  {
    set k | k in s && s[k].MerchantEntry?
  }

  /** `s` and `t` hold the same thing at every key outside `keys`. */
  ghost predicate AgreeOutside(s: Store, t: Store, keys: set<string>)
  {
    forall k :: k !in keys ==> Lookup(s, k) == Lookup(t, k)
  }

  /** Writing a key adds it to, or removes it from, the merchant keys
      according to what is written. */
  lemma MerchantKeysAfterPut(s: Store, k: string, e: Entry)
    ensures e.MerchantEntry? ==> MerchantKeys(s[k := e]) == MerchantKeys(s) + {k}
    ensures !e.MerchantEntry? ==> MerchantKeys(s[k := e]) == MerchantKeys(s) - {k}
  {
  }

  /** Deleting a key removes it from the merchant keys. */
  lemma MerchantKeysAfterDelete(s: Store, k: string)
    ensures MerchantKeys(s - {k}) == MerchantKeys(s) - {k}
  {
  }
}

=== FILE: manage_owner.dfy ===
/**
 The merchant operations of the chaincode in owner/manageOwner.go, each one
 invocation as a pure step from a ledger state to the next.

 Every operation returns two independent outputs, as the source does: the
 value or error handed back to the caller (`Outcome`) and the notification
 events sent to the event sink. The source mixes three shapes of result:
 - `Ok`: a nil error, possibly with a payload, usually with a 200 event;
 - `SoftErr`: a nil result and a nil error, with a 503 event only;
 - `HardErr`: a returned error and no event.

 Ledger calls are numbered per invocation from 0 in the order the source makes
 them; `faults` says which of them return an error.
 */
module ManageOwner {
  import opened Values
  import opened IndexList
  import opened Ledger

  /** Status codes carried by events. */
  const Success: int := 200
  const Unavailable: int := 503

  /** What an event reports; stands for the message text of the source. */
  datatype Note =
    | Deployed
    | Created(id: string)
    | Updated(id: string)
    | Deleted(id: string)
    | BadArgCount(expected: nat)
    | AlreadyExists
    | NotFound(id: string)
    | ReadFailed(id: string)
    | DeleteFailed
    | IndexReadFailed
    | UnknownInvocation
    | UnknownQuery

  datatype Event = Event(code: int, note: Note)

  /** Why an operation returned an error to its caller. */
  datatype Cause =
    | StoreFault               // a ledger write error passed through unchanged
    | MerchantLookupFailed     // create could not read the record key
    | IndexLookupFailed        // the index key could not be read
    | RecordLookupFailed(id: string)  // listing could not read one indexed key

  /** A payload for the caller. */
  datatype Reply =
    | NoReply
    | Record(value: Option<Entry>)
    | Listing(items: seq<(string, Option<Entry>)>)

  datatype Outcome = Ok(reply: Reply) | SoftErr(note: Note) | HardErr(cause: Cause)

  /** The ledger left behind, the caller's result and the events sent. */
  datatype Step = Step(store: Store, outcome: Outcome, events: seq<Event>)

  /** A 503 event and a nil result. */
  function Reject(s: Store, note: Note): Step
  {
    Step(s, SoftErr(note), [Event(Unavailable, note)])
  }

  /** An error returned to the caller, no event. */
  function Abort(s: Store, cause: Cause): Step
  {
    Step(s, HardErr(cause), [])
  }

  /** A 200 event and a nil result. */
  function Report(s: Store, note: Note): Step
  {
    Step(s, Ok(NoReply), [Event(Success, note)])
  }

  /** Init (owner/manageOwner.go:58-88). Ledger calls: 0 writes the test
      value, 1 writes the empty index. */
  function Init(s: Store, args: seq<string>, faults: Faults): (r: Step)
    // the argument count is checked before the ledger is touched
    ensures |args| != 1 ==> r == Reject(s, BadArgCount(1))
    ensures r.outcome.Ok? <==> |args| == 1 && 0 !in faults && 1 !in faults
    // each write error is returned to the caller, not turned into an event;
    // a failed index write leaves the test value already written
    ensures |args| == 1 && 0 in faults ==> r == Abort(s, StoreFault)
    ensures |args| == 1 && 0 !in faults && 1 in faults ==> r == Abort(s[TestKey := Raw(args[0])], StoreFault)
    // on success the index key holds an encoded empty index
    ensures r.outcome.Ok? ==>
      && Lookup(r.store, IndexKey) == Some(IndexEntry([]))
      && IndexOf(r.store) == []
      && Lookup(r.store, TestKey) == Some(Raw(args[0]))
      && r.events == [Event(Success, Deployed)]
    // a reset clears the index but not the records: only the test key and
    // the index key are overwritten
    ensures r.outcome.Ok? ==> MerchantKeys(r.store) == MerchantKeys(s) - {TestKey, IndexKey}
    ensures AgreeOutside(s, r.store, {TestKey, IndexKey})
    // a failed write is passed back to the caller and the index is left alone
    ensures r.outcome.HardErr? ==>
      r.outcome.cause == StoreFault && r.events == [] && Lookup(r.store, IndexKey) == Lookup(s, IndexKey)
  {
    if |args| != 1 then Reject(s, BadArgCount(1))
    else if 0 in faults then Abort(s, StoreFault)
    else
      var s1 := s[TestKey := Raw(args[0])];
      if 1 in faults then Abort(s1, StoreFault)
      else
        var s2 := s1[IndexKey := IndexEntry([])];
        assert MerchantKeys(s2) == MerchantKeys(s) - {TestKey, IndexKey};
        Report(s2, Deployed)
  }

  /** getMerchantByID (owner/manageOwner.go:143-168). Ledger call 0 reads the key. */
  function GetMerchantByID(s: Store, args: seq<string>, faults: Faults): (r: Step)
    ensures r.store == s
    ensures |args| != 1 ==> r == Reject(s, BadArgCount(1))
    // a read error is reported as "not found" on the event channel only
    ensures |args| == 1 && 0 in faults ==> r == Reject(s, NotFound(args[0]))
    // otherwise the raw stored value comes back; an absent key is not an error
    ensures r.outcome.Ok? <==> |args| == 1 && 0 !in faults
    ensures r.outcome.Ok? ==> r.outcome.reply == Record(Lookup(s, args[0])) && r.events == []
  {
    if |args| != 1 then Reject(s, BadArgCount(1))
    else if 0 in faults then Reject(s, NotFound(args[0]))
    else Step(s, Ok(Record(Lookup(s, args[0]))), [])
  }

  /** Outcome of resolving the indexed ids one by one. */
  datatype Resolution =
    | Resolved(items: seq<(string, Option<Entry>)>)
    | Unresolved(at: nat)

  /** The loop of getAllMerchants (owner/manageOwner.go:184-197): read each id
      in order; ledger call `next + i` reads `ids[i]`. The first failing read
      ends the walk with no partial result. */
  function Resolve(s: Store, ids: seq<string>, faults: Faults, next: nat): (r: Resolution)
    ensures r.Resolved? <==> forall j :: next <= j < next + |ids| ==> j !in faults
    ensures r.Resolved? ==>
      && |r.items| == |ids|
      && forall i :: 0 <= i < |ids| ==> r.items[i] == (ids[i], Lookup(s, ids[i]))
    ensures r.Unresolved? ==>
      && r.at < |ids|
      && next + r.at in faults
      && forall j :: next <= j < next + r.at ==> j !in faults
    decreases |ids|
  {
    if ids == [] then Resolved([])
    else if next in faults then Unresolved(0)
    else
      match Resolve(s, ids[1..], faults, next + 1)
      case Resolved(rest) => Resolved([(ids[0], Lookup(s, ids[0]))] + rest)
      case Unresolved(at) => Unresolved(at + 1)
  }

  /** getAllMerchants (owner/manageOwner.go:172-201). Its arguments are never
      looked at. Ledger call 0 reads the index, call 1 + i reads the i-th id. */
  function GetAllMerchants(s: Store, faults: Faults): (r: Step)
    ensures r.store == s && r.events == []
    ensures 0 in faults ==> r.outcome == HardErr(IndexLookupFailed)
    // every read error is returned to the caller; the listing sends no 503 event
    ensures !r.outcome.SoftErr?
    // the listing succeeds exactly when none of its reads fails
    ensures r.outcome.Ok? <==> forall j :: 0 <= j <= |IndexOf(s)| ==> j !in faults
    // one entry per indexed id, in index order, each with what the ledger holds
    ensures r.outcome.Ok? ==>
      && r.outcome.reply.Listing?
      && |r.outcome.reply.items| == |IndexOf(s)|
      && forall i :: 0 <= i < |IndexOf(s)| ==>
           r.outcome.reply.items[i] == (IndexOf(s)[i], Lookup(s, IndexOf(s)[i]))
    // a failing id read fails the whole call, naming the first id whose read failed
    ensures r.outcome.HardErr? && 0 !in faults ==>
      exists k :: 0 <= k < |IndexOf(s)| && r.outcome.cause == RecordLookupFailed(IndexOf(s)[k])
        && 1 + k in faults && forall j :: 1 <= j <= k ==> j !in faults
  {
    if 0 in faults then Abort(s, IndexLookupFailed)
    else
      var ids := IndexOf(s);
      match Resolve(s, ids, faults, 1)
      case Resolved(items) => Step(s, Ok(Listing(items)), [])
      case Unresolved(at) => Abort(s, RecordLookupFailed(ids[at]))
  }

  /** The index half of deleteMerchant (owner/manageOwner.go:227-254), run on
      the ledger the record delete `s1` left behind. Ledger calls: 1 reads the
      index, 2 writes it back. */
  function UnlistDeleted(s1: Store, id: string, faults: Faults): (r: Step)
    // an index read error is a 503 event; nothing more is written
    ensures 1 in faults ==> r == Reject(s1, IndexReadFailed)
    // the index write error is dropped: success is reported regardless
    ensures r.outcome.Ok? <==> 1 !in faults
    ensures r.outcome.Ok? ==> r.outcome.reply == NoReply && r.events == [Event(Success, Deleted(id))]
    // the index entry is written back even when its contents do not change,
    // without the first entry equal to the id
    ensures 1 !in faults && 2 !in faults ==>
      Lookup(r.store, IndexKey) == Some(IndexEntry(RemoveFirst(IndexOf(s1), id)))
    ensures 2 in faults ==> r.store == s1
    // no other key is touched
    ensures AgreeOutside(s1, r.store, {IndexKey})
    ensures !r.outcome.HardErr?
  {
    if 1 in faults then Reject(s1, IndexReadFailed)
    else
      var ids := RemoveFirst(IndexOf(s1), id);
      var s2 := if 2 in faults then s1 else s1[IndexKey := IndexEntry(ids)];
      Report(s2, Deleted(id))
  }

  /** deleteMerchant (owner/manageOwner.go:205-261). Ledger calls: 0 deletes
      the key, 1 reads the index, 2 writes the index back. */
  function DeleteMerchant(s: Store, args: seq<string>, faults: Faults): (r: Step)
    ensures |args| != 1 ==> r == Reject(s, BadArgCount(1))
    ensures |args| == 1 && 0 in faults ==> r == Reject(s, DeleteFailed)
    // no existence check: the key is gone whether or not it held anything
    ensures |args| == 1 && 0 !in faults && args[0] != IndexKey ==> args[0] !in r.store
    // an index read error is reported after the record is already gone
    ensures |args| == 1 && 0 !in faults && 1 in faults ==>
      r == Reject(s - {args[0]}, IndexReadFailed)
    // the index write error is dropped: success is reported regardless
    ensures r.outcome.Ok? <==> |args| == 1 && 0 !in faults && 1 !in faults
    ensures r.outcome.Ok? ==> r.outcome.reply == NoReply && r.events == [Event(Success, Deleted(args[0]))]
    // the index loses the first entry equal to the id, nothing else
    ensures |args| == 1 && args[0] != IndexKey && r.outcome.Ok? && 2 !in faults ==>
      IndexOf(r.store) == RemoveFirst(IndexOf(s), args[0])
    ensures |args| == 1 && args[0] != IndexKey && r.outcome.Ok? && 2 in faults ==>
      IndexOf(r.store) == IndexOf(s)
    // the index entry is written even when its contents do not change, and a
    // failed write leaves it as the delete found it
    ensures |args| == 1 && r.outcome.Ok? && 2 !in faults ==>
      Lookup(r.store, IndexKey) == Some(IndexEntry(RemoveFirst(IndexOf(s - {args[0]}), args[0])))
    ensures |args| == 1 && r.outcome.Ok? && 2 in faults ==>
      Lookup(r.store, IndexKey) == Lookup(s - {args[0]}, IndexKey)
    // only the id and the index key are ever touched
    ensures |args| == 1 ==> AgreeOutside(s, r.store, {args[0], IndexKey})
    // delete never hands an error back to its caller
    ensures !r.outcome.HardErr?
  {
    if |args| != 1 then Reject(s, BadArgCount(1))
    else
      var id := args[0];
      if 0 in faults then Reject(s, DeleteFailed)
      else
        var s1 := s - {id};
        assert id != IndexKey ==> IndexOf(s1) == IndexOf(s);
        assert AgreeOutside(s, s1, {id});
        UnlistDeleted(s1, id, faults)
  }

  /** updateMerchant (owner/manageOwner.go:265-332). Ledger calls: 0 reads the
      key, 1 writes the merged record. */
  function UpdateMerchant(s: Store, args: seq<string>, faults: Faults): (r: Step)
    ensures |args| != 8 ==> r == Reject(s, BadArgCount(8))
    ensures |args| == 8 && 0 in faults ==> r == Reject(s, ReadFailed(args[0]))
    // a stored value that does not decode to a merchant with this id is "not found"
    ensures |args| == 8 && 0 !in faults && DecodeMerchant(Lookup(s, args[0])).id != args[0] ==>
      r == Reject(s, NotFound(args[0]))
    ensures r.outcome.Ok? <==>
      |args| == 8 && 0 !in faults && 1 !in faults && DecodeMerchant(Lookup(s, args[0])).id == args[0]
    // on success the key holds a merchant that keeps the stored id and takes
    // its seven mutable fields from arguments 1..7
    ensures r.outcome.Ok? ==>
      && args[0] in r.store
      && r.store[args[0]].MerchantEntry?
      && r.store[args[0]].merchant.id == DecodeMerchant(Lookup(s, args[0])).id
      && Fields(r.store[args[0]].merchant) == args[1..]
      && r.events == [Event(Success, Updated(args[0]))]
    // the index is never changed, and nothing but the id's key is written
    ensures IndexOf(r.store) == IndexOf(s)
    ensures r.store == s || (|args| == 8 && AgreeOutside(s, r.store, {args[0]}))
    ensures r.outcome.HardErr? ==> r == Abort(s, StoreFault)
    // the write error is returned to the caller and nothing is written
    ensures |args| == 8 && 0 !in faults && 1 in faults && DecodeMerchant(Lookup(s, args[0])).id == args[0] ==>
      r == Abort(s, StoreFault)
  {
    if |args| != 8 then Reject(s, BadArgCount(8))
    else
      var id := args[0];
      if 0 in faults then Reject(s, ReadFailed(id))
      else
        var res := DecodeMerchant(Lookup(s, id));
        if res.id != id then Reject(s, NotFound(id))
        else
          var merged := res.(name := args[1], logo := args[2], industry := args[3],
                             pointsPerDollarSpent := args[4], currency := args[5],
                             exchangeRate := args[6], updated := args[7]);
          if 1 in faults then Abort(s, StoreFault)
          else Report(s[id := MerchantEntry(merged)], Updated(id))
  }

  /** createMerchant (owner/manageOwner.go:336-418). Ledger calls: 0 reads the
      key, 1 writes the record, 2 reads the index, 3 writes the index. */
  function CreateMerchant(s: Store, args: seq<string>, faults: Faults): (r: Step)
    ensures |args| != 8 ==> r == Reject(s, BadArgCount(8))
    // a read error is returned to the caller before anything is written
    ensures |args| == 8 && 0 in faults ==> r == Abort(s, MerchantLookupFailed)
    // the existence guard: rejected exactly when the stored value decodes to
    // a merchant with this id, and then nothing changes
    ensures |args| == 8 && 0 !in faults ==>
      (r.outcome == SoftErr(AlreadyExists) <==> DecodeMerchant(Lookup(s, args[0])).id == args[0])
    ensures r.outcome.SoftErr? ==> r.store == s && r.events == [Event(Unavailable, r.outcome.note)]
    // the only 503 events are the argument count and "already exists"
    ensures r.outcome.SoftErr? ==> |args| != 8 || r.outcome.note == AlreadyExists
    // past the guard, every ledger error is returned to the caller: the
    // record write (call 1), the index read (call 2) and the index write (call 3)
    ensures |args| == 8 && 0 !in faults && DecodeMerchant(Lookup(s, args[0])).id != args[0] ==>
      && (1 in faults ==> r == Abort(s, StoreFault))
      && (1 !in faults && 2 in faults ==>
            r == Abort(s[args[0] := MerchantEntry(MerchantFromArgs(args))], IndexLookupFailed))
      && (1 !in faults && 2 !in faults && 3 in faults ==>
            r == Abort(s[args[0] := MerchantEntry(MerchantFromArgs(args))], StoreFault))
    ensures r.outcome.Ok? <==>
      && |args| == 8
      && DecodeMerchant(Lookup(s, args[0])).id != args[0]
      && forall j :: 0 <= j < 4 ==> j !in faults
    // success: the record is stored under its id and the id is appended to
    // the end of the index, with no duplicate check
    ensures r.outcome.Ok? && args[0] != IndexKey ==>
      && Lookup(r.store, args[0]) == Some(MerchantEntry(MerchantFromArgs(args)))
      && IndexOf(r.store) == IndexOf(s) + [args[0]]
      && AgreeOutside(s, r.store, {args[0], IndexKey})
      && r.events == [Event(Success, Created(args[0]))]
    // a hard error never writes the index: at most the record is written
    ensures r.outcome.HardErr? ==>
      && |args| == 8
      && r.events == []
      && (r.store == s || r.store == s[args[0] := MerchantEntry(MerchantFromArgs(args))])
  {
    if |args| != 8 then Reject(s, BadArgCount(8))
    else
      var id := args[0];
      if 0 in faults then Abort(s, MerchantLookupFailed)
      else if DecodeMerchant(Lookup(s, id)).id == id then Reject(s, AlreadyExists)
      else if 1 in faults then Abort(s, StoreFault)
      else
        var s1 := s[id := MerchantEntry(MerchantFromArgs(args))];
        if 2 in faults then Abort(s1, IndexLookupFailed)
        else if 3 in faults then Abort(s1, StoreFault)
        else Report(s1[IndexKey := IndexEntry(IndexOf(s1) + [id])], Created(id))
  }

  /** Names the invocation entry point dispatches on. */
  const InvokeNames: set<string> := {"init", "createMerchant", "deleteMerchant", "updateMerchant"}

  /** Invoke (owner/manageOwner.go:99-119): the entry point for state changes. */
  function Invoke(s: Store, fn: string, args: seq<string>, faults: Faults): (r: Step)
    ensures fn !in InvokeNames ==> r == Reject(s, UnknownInvocation)
    ensures fn == "createMerchant" ==> r == CreateMerchant(s, args, faults)
    ensures fn == "deleteMerchant" ==> r == DeleteMerchant(s, args, faults)
    ensures fn == "updateMerchant" ==> r == UpdateMerchant(s, args, faults)
    ensures fn == "init" ==> r == Init(s, args, faults)
  {
    if fn == "init" then Init(s, args, faults)
    else if fn == "createMerchant" then CreateMerchant(s, args, faults)
    else if fn == "deleteMerchant" then DeleteMerchant(s, args, faults)
    else if fn == "updateMerchant" then UpdateMerchant(s, args, faults)
    else Reject(s, UnknownInvocation)
  }

  /** Query (owner/manageOwner.go:123-139): the read-only entry point. */
  function Query(s: Store, fn: string, args: seq<string>, faults: Faults): (r: Step)
    // a query never changes the ledger
    ensures r.store == s
    ensures fn == "getMerchantByID" ==> r == GetMerchantByID(s, args, faults)
    ensures fn == "getAllMerchants" ==> r == GetAllMerchants(s, faults)
    ensures fn != "getMerchantByID" && fn != "getAllMerchants" ==> r == Reject(s, UnknownQuery)
  {
    if fn == "getMerchantByID" then GetMerchantByID(s, args, faults)
    else if fn == "getAllMerchants" then GetAllMerchants(s, faults)
    else Reject(s, UnknownQuery)
  }
}

=== FILE: values.dfy ===
/**
 Values held by the ledger: merchant records, the merchant index and opaque
 text, together with the two forgiving decode policies that every guard in the
 merchant operations depends on.

 The source stores hand-assembled JSON text and decodes it with a library call
 whose error it ignores. Here a stored value is a structured `Entry`, and the
 ignored decode error becomes an explicit default: a value that is not a
 merchant decodes to the blank merchant, a value that is not an index decodes
 to the empty index.
 */
module Values {

  datatype Option<+T> = None | Some(value: T)

  /** A merchant record (owner/manageOwner.go:35-44). Every field is free-form
      text; `id` is the record's identity and its ledger key. */
  datatype Merchant = Merchant(
    id: string,
    name: string,
    logo: string,
    industry: string,
    pointsPerDollarSpent: string,
    currency: string,
    exchangeRate: string,
    updated: string)

  /** What one ledger key can hold. `Raw` is any other text, such as the test
      value written by initialisation. */
  datatype Entry =
    | MerchantEntry(merchant: Merchant)
    | IndexEntry(ids: seq<string>)
    | Raw(text: string)

  /** The zero-valued merchant a failed decode leaves behind. */
  const Blank: Merchant := Merchant("", "", "", "", "", "", "", "")

  /** The seven mutable fields, in the order of positional arguments 1..7. */
  function Fields(m: Merchant): seq<string>
  {
    [m.name, m.logo, m.industry, m.pointsPerDollarSpent, m.currency, m.exchangeRate, m.updated]
  }

  /** The record described by the eight positional arguments of
      createMerchant and updateMerchant: the id first, then the mutable fields. */
  function MerchantFromArgs(args: seq<string>): (m: Merchant)
    requires |args| == 8
    ensures m.id == args[0]
    ensures Fields(m) == args[1..]
  {
    Merchant(args[0], args[1], args[2], args[3], args[4], args[5], args[6], args[7])
  }

  /** Identity and the mutable fields together determine a record. */
  lemma FieldsDetermineMerchant(a: Merchant, b: Merchant)
    requires a.id == b.id && Fields(a) == Fields(b)
    ensures a == b
  {
    assert Fields(a)[0] == Fields(b)[0] && Fields(a)[1] == Fields(b)[1];
    assert Fields(a)[2] == Fields(b)[2] && Fields(a)[3] == Fields(b)[3];
    assert Fields(a)[4] == Fields(b)[4] && Fields(a)[5] == Fields(b)[5];
    assert Fields(a)[6] == Fields(b)[6];
  }

  /** Merchant decode with the error ignored: the value read for a key,
      absent or present, read as a merchant. */
  function DecodeMerchant(v: Option<Entry>): (m: Merchant)
    // a stored merchant decodes to itself
    ensures forall r :: v == Some(MerchantEntry(r)) ==> m == r
    // an absent key or a value of another kind decodes to the blank record
    ensures !(v.Some? && v.value.MerchantEntry?) ==> m == Blank
    // so a decoded non-empty id is evidence that a merchant really is stored
    ensures m.id != "" ==> v == Some(MerchantEntry(m))
  {
    match v
    case Some(MerchantEntry(r)) => r
    case _ => Blank
  }

  /** Index decode with the error ignored: an absent or corrupt index reads
      as the empty index. */
  function DecodeIndex(v: Option<Entry>): (ids: seq<string>)
    // an encoded index decodes to itself
    ensures forall e :: v == Some(IndexEntry(e)) ==> ids == e
    // anything else behaves as the empty index
    ensures !(v.Some? && v.value.IndexEntry?) ==> ids == []
  {
    match v
    case Some(IndexEntry(e)) => e
    case _ => []
  }
}
